=== FILE: README.md ===
# Download interception of the XDM browser helper, in Dafny

The XDM helper extension watches the browser for downloads and hands the
matching ones to the Xtreme Download Manager application. It talks to that
application, the native host, over a native-messaging port. Chrome's `App`
(`chrome/chrome-extension/app/app.js`) and Firefox's `DownloadWatcher`
(`firefox-amo/firefox/lib/watcher.js`) are two near-identical copies of the
same logic. This project models both with shared modules:

- `strings.dfy` (`Strings`): the JavaScript string operations the logic uses.
  These are `indexOf`, `endsWith`, ASCII `toUpperCase` and `Array.join`, plus the
  `split` a receiver uses to undo a join.
- `intercept.dfy` (`Intercept`): `Array.prototype.find`, the `shouldTakeOver`
  decision and the tab-watch predicate. The URL comes already split into host
  and pathname.
- `protocol.dfy` (`Protocol`): the outbound messages (`download_data`,
  `download_headers`, `tab_update`). It builds the cookie string and the header
  list. It also defines a receiver's reading of both fields, which the
  construction is proved against.
- `extension.dfy` (`Extension`): one immutable state record with each handler
  as a pure transition. The record holds `enabled`, the port, the
  configuration, and a `Platform` that carries Chrome's `registered` and
  `registerTabOpen` flags. Browser API calls go to an effect log, and posts on
  the port go to an outbox.
- `lifecycle.dfy` (`Lifecycle`): handlers driven by any sequence of events, and
  the invariants every run keeps.

Environment inputs are parameters: the user agent (`navigator.userAgent`), the
cookie store's answer (`cookies.getAll`), the stored `registered` flag
(`storage.local.get`) and the parsed URL.

Two points of the code as written decide what the model computes:
- An extension is matched against the upper-cased path only. It is not a
  case-insensitive comparison, so a configured `.mp4` never matches.
- Each `shouldTakeOver` test checks the truthiness of the entry `find`
  returns, and the empty string is falsy. An empty entry found first
  therefore reads as "no match" even when a later entry matches (see
  Findings). The download handlers use the corrected decision
  `Intercept.ShouldTakeOver`, in which an empty entry matches nothing and
  every non-empty entry counts whatever its position. It agrees with the code
  as written whenever neither list holds an empty string
  (`Extension.InterceptsAsWritten`).

## Model

| member | source | states |
|---|---|---|
| Strings.IndexOf | chrome/chrome-extension/app/app.js:161 | `indexOf` gives -1 exactly when the term is not a substring; otherwise it gives an index where the term occurs, with no occurrence before it |
| Strings.ToUpper | chrome/chrome-extension/app/app.js:165 | upper-casing keeps the length, upper-cases each ASCII letter in place and leaves no lower-case ASCII letter |
| Strings.EndsWithIffConcat | chrome/chrome-extension/app/app.js:166 | `endsWith(ext)` holds exactly when the string is some prefix followed by `ext` |
| Intercept.Find | chrome/chrome-extension/app/app.js:166 | `find` returns undefined exactly when no element satisfies the test; otherwise it returns a satisfying element with no satisfying element before it |
| Intercept.ShouldTakeOver | chrome/chrome-extension/app/app.js:158-170 | take over exactly when no non-empty deny-list entry is a substring of the host and the upper-cased filename (or URL pathname when the filename is empty) ends with some non-empty configured extension |
| Intercept.ShouldTakeOverAsWritten | firefox-amo/firefox/lib/watcher.js:111-123 | the code as written (truthiness of each `find` result) agrees with `ShouldTakeOver` whenever neither list holds an empty string, and otherwise only ever adds take-overs when the deny-list holds one |
| Intercept.CorrectedIsWrittenWithoutEmptyEntries | firefox-amo/firefox/lib/watcher.js:111-123 | the corrected decision equals the code as written run on both lists with their empty entries removed |
| Intercept.EmptyBlockedEntryMatchesNothing | firefox-amo/firefox/lib/watcher.js:114-116 | putting an empty entry at the head of the deny-list leaves the corrected decision unchanged |
| Intercept.EmptyExtensionMatchesNothing | firefox-amo/firefox/lib/watcher.js:119-121 | putting an empty entry at the head of the extension list leaves the corrected decision unchanged |
| Intercept.BlockedHostNeverTakenOver | chrome/chrome-extension/app/app.js:160-163 | a host containing any non-empty deny-list entry is never taken over, whatever the filename and extensions |
| Intercept.ExtensionMatchTakesOver | chrome/chrome-extension/app/app.js:164-169 | with no host blocked, a path whose upper-cased form ends with a non-empty configured extension is taken over |
| Intercept.NoExtensionsNeverTakeOver | firefox-amo/firefox/lib/watcher.js:119-122 | with an empty extension list nothing is taken over |
| Intercept.LowercaseExtensionNeverMatches | chrome/chrome-extension/app/app.js:165-166 | an extension holding a lower-case ASCII letter never matches, because only the path is upper-cased |
| Intercept.ExampleHostTakenOver | chrome/chrome-extension/app/app.js:158-169 | with extensions `[".MP4"]` and deny-list `["cdn.blocked.com"]`, `/movie.mp4` from `videos.example.com` is taken over |
| Intercept.ExampleBlockedHostRefused | chrome/chrome-extension/app/app.js:160-163 | the same file from `cdn.blocked.com` is not taken over |
| Intercept.EmptyFirstBlockedEntryDisablesDenyList | firefox-amo/firefox/lib/watcher.js:114-116 | as written, a deny-list whose first entry is empty decides exactly as an empty deny-list |
| Intercept.EmptyFirstBlockedEntryBypassesDenyList | firefox-amo/firefox/lib/watcher.js:114-121 | as written, with an empty first deny-list entry, every blocked host whose path matches a configured extension is taken over, and the corrected decision refuses it |
| Intercept.EmptyFirstExtensionRefusesAll | firefox-amo/firefox/lib/watcher.js:119-122 | as written, an extension list whose first entry is empty takes nothing over |
| Intercept.EmptyBlockedEntryBypassesDenyList | firefox-amo/firefox/lib/watcher.js:114-116 | as written, with extensions `[".MP4"]`, deny-list `["", host]` lets `/movie.mp4` from that very host through (`cdn.blocked.com`, say, or any other non-empty host), while the corrected decision refuses it |
| Intercept.EmptyExtensionMasksMatch | firefox-amo/firefox/lib/watcher.js:119-121 | as written, extensions `["", ".MP4"]` refuse `/movie.mp4`, while the corrected decision takes it over |
| Intercept.TabWatched | chrome/chrome-extension/app/app.js:103-104 | the watch-list matches exactly when some watched term has `url.indexOf(term) > 0` |
| Intercept.WatchedTermMatch | firefox-amo/firefox/lib/watcher.js:81 | `indexOf(term) > 0` holds exactly when the term occurs in the URL but not at index 0, so an occurrence at the start hides all later ones |
| Intercept.TermAtStartNeverRelays | chrome/chrome-extension/app/app.js:104 | a URL that starts with every watched term (or a watch-list of empty terms) never matches |
| Protocol.CookieString | chrome/chrome-extension/app/app.js:192 | the cookie string is empty exactly when there are no cookies, and is `name=value` for a single cookie |
| Protocol.CookieStringRoundTrip | firefox-amo/firefox/lib/watcher.js:145 | splitting the cookie string at `"; "` and each pair at its first `=` gives back the cookies in store order |
| Protocol.RequestHeaders | chrome/chrome-extension/app/app.js:193-196 | headers are `User-Agent: <ua>` first, with a second `Referer: <referrer>` entry exactly when the referrer is non-empty |
| Protocol.RequestHeadersLookup | firefox-amo/firefox/lib/watcher.js:146-149 | a receiver looking headers up by name finds the user agent, and finds a referrer exactly when one was given |
| Protocol.BuildDownloadData | chrome/chrome-extension/app/app.js:190-205 | no message when the cookie store returns nothing; otherwise a message tagged `download_data` with the URL, filename, size and MIME type unchanged, plus the cookie string and headers |
| Protocol.SingleCookieScenario | chrome/chrome-extension/app/app.js:192-196 | cookie `sid=abc` with a referrer gives cookie string `sid=abc` and headers `[User-Agent: <ua>, Referer: <referrer>]` |
| Extension.Initial | chrome/chrome-extension/app/app.js:6-17 | the constructor leaves the extension disabled with no port, empty extension, deny and watch lists, nothing sent or called, and on Chrome `registered` and `registerTabOpen` both false |
| Extension.EffectiveUrl | firefox-amo/firefox/lib/watcher.js:25 | the download's final URL when it has one, otherwise its original URL |
| Extension.ActionIcon | chrome/chrome-extension/app/app.js:180-186 | the icon set names the same state's icon at sizes 16, 48 and 128; its 16-pixel entry is `icon16.png` exactly when enabled and `icon16-mono.png` exactly when disabled |
| Extension.UpdateActionIcon | firefox-amo/firefox/lib/watcher.js:125-127 | exactly one `setIcon` with the icon set of the current state is appended, and nothing else changes |
| Extension.ActionIconName | firefox-amo/firefox/lib/watcher.js:129-131 | the icon name is the icon followed by `.png` exactly when enabled, and by `-mono.png` exactly when disabled |
| Extension.ActionIconNameShowsState | chrome/chrome-extension/app/app.js:176-178 | two states show the same icon name only when their `enabled` flags agree |
| Extension.OnRequestDataReceived | chrome/chrome-extension/app/app.js:19-23 | request data is posted as `download_headers` only when a port is open; nothing else changes |
| Extension.OnMessage | chrome/chrome-extension/app/app.js:44-62 | `enabled` becomes true only for an `enabled` field that is exactly `true`; the three lists are replaced wholesale; port and outbox stay unchanged; Chrome's `registered` becomes true and is written to storage on first contact only; the request watcher gets `requestFileExts` |
| Extension.OnDisconnect | chrome/chrome-extension/app/app.js:64-71 | afterwards the extension is disabled with no port, shows the mono icon and, on Chrome, reads the stored flag |
| Extension.OnRegister | chrome/chrome-extension/app/app.js:73-82 | the registration tab is opened exactly when the stored flag is not `true` and no tab was opened before, and the open flag is then set |
| Extension.StartNativeHost | chrome/chrome-extension/app/app.js:84-88 | a port to the platform's named native host is opened |
| Extension.Diconnect | firefox-amo/firefox/lib/watcher.js:165-168 | afterwards the extension is disabled with no port; the effects appended are, in order, closing the port exactly when there was one, the mono icon, and on Chrome the read of the stored flag |
| Extension.DiconnectTwice | chrome/chrome-extension/app/app.js:212-215 | a second disconnect leaves the same state and does not try to close a port |
| Extension.ActionClicked | firefox-amo/firefox/lib/watcher.js:67-75 | when disabled with no port, exactly one `connectNative` to the platform's host is called, a port opens and `enabled` is unchanged; when disabled with a port, nothing changes; when enabled, it is `diconnect`: the port is closed, the mono icon shown and, on Chrome, the stored flag read, leaving the extension disabled with no port |
| Extension.OnTabUpdate | firefox-amo/firefox/lib/watcher.js:77-95 | `{tab_update: {url, title}}` is posted exactly when the title is non-empty, some watched term has `indexOf > 0` in the URL, and a port is open |
| Extension.TriggerDownload | chrome/chrome-extension/app/app.js:188-210 | the `download_data` message is posted exactly when the cookie store answered and a port is open |
| Extension.InterceptsAsWritten | chrome/chrome-extension/app/app.js:28-30 | when neither list holds an empty string, the handlers' test is exactly `this.enabled && shouldTakeOver(...)` as written |
| Extension.OnDeterminingFilename | chrome/chrome-extension/app/app.js:25-37 | Chrome: nothing changes unless enabled and `shouldTakeOver` holds for `finalUrl or url`; then the download is cancelled, and its message is posted when the cookie store answered and a port is open, with nothing posted otherwise |
| Extension.OnDownloadCreated | firefox-amo/firefox/lib/watcher.js:22-35 | Firefox: as on Chrome, including that nothing is posted without a cookie answer or a port, but cancel is followed by erase from the history, in that order |
| Lifecycle.RunInv | chrome/chrome-extension/app/app.js:44-98 | after any sequence of events, the extension is enabled only with an open port, and the registration tab has been opened once if the flag is set and never otherwise |
| Lifecycle.RegisterTabOpenedAtMostOnce | chrome/chrome-extension/app/app.js:77-81 | from the constructor's state, no sequence of events opens the registration tab more than once |
| Lifecycle.RegisteredStaysSet | chrome/chrome-extension/app/app.js:45-48 | once `registered` is true it stays true through any events |
| Lifecycle.NothingSentWithoutPort | firefox-amo/firefox/lib/watcher.js:19 | with no port, no event posts anything |
| Lifecycle.NeverTakenOverWhileDisabled | firefox-amo/firefox/lib/watcher.js:27-34 | a download event while disabled changes nothing: no cancel, no erase, no message |
| Lifecycle.InterceptedDownloadReachesHost | chrome/chrome-extension/app/app.js:30-36 | in a reachable state, an intercepted download is cancelled and its message is posted once the cookie store answers |
| Lifecycle.EnableThenDisconnect | firefox-amo/firefox/lib/watcher.js:37-58 | an enabling host message followed by the port closing leaves the extension disabled with no port |
| Lifecycle.ClickConnectsOnce | chrome/chrome-extension/app/app.js:90-98 | two clicks from the constructor's state open exactly one connection and leave the extension disabled |

## Left out

- URL parsing (`new URL`): the URL arrives as `(href, host, pathname)`. A malformed URL, which makes the browser's parser throw, is not modelled.
- Strings.ToUpper: only ASCII letters are upper-cased; full Unicode `toUpperCase`, which can change a string's length, is not modelled.
- Browser APIs (`downloads.cancel`/`erase`, `cookies.getAll`, `storage.local`, `tabs.create`, `setIcon`, `connectNative`, `postMessage`, `disconnect`) are foreign and asynchronous. Each is recorded as an effect or an outbox entry.
- Extension.TriggerDownload: the real cookie callback runs later, against the port captured when the download was seen. The model delivers the cookie answer at once, so races between that callback and configuration changes or disconnects are not modelled.
- Extension.TriggerDownload: the source posts on the captured port without checking it, so with no port it throws an uncaught `TypeError`. The model sends nothing instead. From the handlers this case cannot arise: they only trigger while enabled, and `Lifecycle.RunInv` proves an enabled extension has a port (`Lifecycle.InterceptedDownloadReachesHost`).
- Extension.OnDeterminingFilename: decides with the corrected `Intercept.ShouldTakeOver`, not the code as written at chrome/chrome-extension/app/app.js:161 and :166. It differs only when a list holds an empty string (see Findings and `Extension.InterceptsAsWritten`).
- Extension.OnDownloadCreated: decides with the corrected `Intercept.ShouldTakeOver`, not the code as written at firefox-amo/firefox/lib/watcher.js:114 and :119. It differs only when a list holds an empty string (see Findings and `Extension.InterceptsAsWritten`).
- JavaScript strings are sequences of UTF-16 code units, while a Dafny string is a sequence of Unicode scalar values, so `indexOf` positions differ after characters outside the Basic Multilingual Plane. The logic only uses whether `indexOf` is negative, zero or positive, which the two agree on.
- Extension.OnTabUpdate: posting with no port throws a `TypeError`, which the handler catches and logs. The model simply sends nothing.
- `Logger` and the `RequestWatcher` collaborator are not part of this model. `updateConfig` is recorded as an effect with its argument, whose `enabled` field is read as a boolean or absent (a non-boolean value, which the source forwards unchanged, is recorded as absent), and the request data forwarded as `download_headers` is an opaque string.
- Host messages whose list fields are `null` or missing: the lists are taken to be sequences.
- Start-up wiring (`start`, listener registration) and Chrome's `onInstalled`, which opens the registration tab on first install, are outside the modelled core. `Lifecycle.RegisterTabOpenedAtMostOnce` therefore counts only tabs opened by `onRegister`.
- Chrome's `onDownloadCreated` only logs, so it is not modelled.
- Extension.OnDeterminingFilename: the `suggest` callback is never called by the source, so it is not a parameter of the model.
- Logging and `console.log` output are not modelled.

## Findings

| source | as written | input that shows it | evidently intended | confidence | as-written member | corrected member |
|---|---|---|---|---|---|---|
| firefox-amo/firefox/lib/watcher.js:114-116 | the deny-list test checks the truthiness of the entry `find` returns, and an empty entry is falsy | `blockedHosts = ["", "cdn.blocked.com"]`, host `cdn.blocked.com`, path `/movie.mp4`, `fileExts = [".MP4"]`: the download is taken over | a host containing any non-empty deny-list entry is refused, whatever the entries' order; an empty entry blocks nothing (the same test in chrome/chrome-extension/app/app.js:161) | medium; not executed | Intercept.EmptyBlockedEntryBypassesDenyList | Intercept.ShouldTakeOver |
| firefox-amo/firefox/lib/watcher.js:119-121 | the extension test checks the truthiness of the extension `find` returns, and an empty extension is falsy | `fileExts = ["", ".MP4"]`, path `/movie.mp4`: the download is not taken over, although `.MP4` is configured | a path ending with any non-empty configured extension is taken over, whatever the entries' order; an empty extension matches nothing, so `/a.zip` is still refused (the same test in chrome/chrome-extension/app/app.js:166) | medium; not executed | Intercept.EmptyExtensionMasksMatch | Intercept.ShouldTakeOver |

In the corrected decision `Intercept.ShouldTakeOver` an empty entry matches
nothing: an empty deny-list entry blocks no host, and an empty extension
matches no path (`Intercept.EmptyBlockedEntryMatchesNothing`,
`Intercept.EmptyExtensionMatchesNothing`). The corrected decision
is the code as written run on the lists with their empty entries removed
(`Intercept.CorrectedIsWrittenWithoutEmptyEntries`).

=== FILE: extension.dfy ===
/**
  The event handlers of the Chrome `App` and the Firefox `DownloadWatcher` as
  pure transitions over one immutable state record.

  Browser APIs are not called: each handler records the calls it would make
  (cancel, erase, connect, set icon, storage, tabs) in `effects`, and every
  message it posts on the native port in `outbox`. Results the browser delivers
  asynchronously (the cookie store, the stored `registered` flag) are inputs.
 */
module Extension {
  import opened Optional
  import opened Strings
  import opened Intercept
  import opened Protocol

  const ChromeHostName := "xdm_chrome.native_host"
  const FirefoxHostName := "xdmff.native_host"

  /** The native-messaging port: `undefined`, or connected to the named host. */
  datatype Port = NoPort | Connected(hostName: string)

  /** The browser; only Chrome's `App` keeps the `registered` and
      `registerTabOpen` flags. */
  datatype Platform = Chrome(registered: bool, registerTabOpen: bool) | Firefox

  /** The toolbar icon paths for the 16, 48 and 128 pixel sizes. */
  datatype IconSet = IconSet(icon16: string, icon48: string, icon128: string)

  /** What `onMessage` passes to the request watcher's `updateConfig`. */
  datatype WatcherConfig = WatcherConfig(enabled: Option<bool>, fileExts: seq<string>, blockedHosts: seq<string>,
                                         matchingHosts: seq<string>, mediaTypes: seq<string>)

  /** A configuration message from the native host. `enabled` is `None` when the
      field is missing or holds something other than a boolean. */
  datatype HostMessage = HostMessage(enabled: Option<bool>, fileExts: seq<string>, requestFileExts: seq<string>,
                                     blockedHosts: seq<string>, matchingHosts: seq<string>,
                                     tabsWatcher: seq<string>, mediaTypes: seq<string>)

  /** A URL as the browser's parser splits it; `href` is the text sent onward. */
  datatype Url = Url(href: string, host: string, pathname: string)

  /** The download item the browser reports; an empty `finalUrl.href` is absent. */
  datatype Download = Download(id: int, url: Url, finalUrl: Url, filename: string, referrer: string,
                               fileSize: int, mime: string)

  /** A call into the browser's extension API. */
  datatype Effect =
    | CancelDownload(id: int)
    | EraseDownload(id: int)
    | ConnectNative(hostName: string)
    | DisconnectPort
    | SetIcon(icons: IconSet)
    | UpdateRequestWatcher(watcherConfig: WatcherConfig)
    | StoreRegistered
    | ReadRegistered
    | OpenRegisterTab

  datatype State = State(platform: Platform, enabled: bool, port: Port, config: Config,
                         outbox: seq<OutboundMessage>, effects: seq<Effect>)

  /** The state the constructor leaves: disabled, no port, empty lists. */
  function Initial(onChrome: bool): (s: State)
    ensures !s.enabled && s.port == NoPort && s.config == Config([], [], [])
    ensures s.outbox == [] && s.effects == []
    ensures s.platform == Chrome(false, false) <==> onChrome
    ensures s.platform == Firefox <==> !onChrome
  {
    State(if onChrome then Chrome(false, false) else Firefox, false, NoPort, Config([], [], []), [], [])
  }

  function NativeHostName(p: Platform): string
  {
    if p.Chrome? then ChromeHostName else FirefoxHostName
  }

  /** `getActionIconName`: the colour icon while enabled, the `-mono` one otherwise. */
  function ActionIconName(enabled: bool, icon: string): (name: string)
    ensures |icon| <= |name| && name[..|icon|] == icon
    ensures enabled <==> name[|icon|..] == ".png"
    ensures !enabled <==> name[|icon|..] == "-mono.png"
  {
    if enabled then icon + ".png" else icon + "-mono.png"
  }

  /** Distinct states always show distinct icons. */
  lemma ActionIconNameShowsState(icon: string, a: bool, b: bool)
    ensures ActionIconName(a, icon) == ActionIconName(b, icon) <==> a == b
  {
  }

  /** `getActionIcon`: the same state's icon name at each of the three sizes. */
  function ActionIcon(enabled: bool): (r: IconSet)
    ensures r.icon16 == ActionIconName(enabled, "icon16")
    ensures r.icon48 == ActionIconName(enabled, "icon48")
    ensures r.icon128 == ActionIconName(enabled, "icon128")
    ensures enabled <==> r.icon16 == "icon16.png"
    ensures !enabled <==> r.icon16 == "icon16-mono.png"
  {
    IconSet(ActionIconName(enabled, "icon16"), ActionIconName(enabled, "icon48"), ActionIconName(enabled, "icon128"))
  }

  /** `updateActionIcon`: set the icon showing the current state; nothing else changes. */
  function UpdateActionIcon(s: State): (s': State)
    ensures |s'.effects| == |s.effects| + 1 && s'.effects[..|s.effects|] == s.effects
    ensures s'.effects[|s.effects|] == SetIcon(ActionIcon(s.enabled))
    ensures s' == s.(effects := s'.effects)
  {
    s.(effects := s.effects + [SetIcon(ActionIcon(s.enabled))])
  }

  /** `onRequestDataReceived`: forward the request watcher's data, only when a
      port is open. */
  function OnRequestDataReceived(s: State, data: string): (s': State)
    ensures s.port.NoPort? ==> s' == s
    ensures s.port.Connected? ==> s'.outbox == s.outbox + [DownloadHeaders(data)]
    ensures s' == s.(outbox := s'.outbox)
  {
    if s.port.Connected? then s.(outbox := s.outbox + [DownloadHeaders(data)]) else s
  }

  function WatcherConfigOf(msg: HostMessage): WatcherConfig
  {
    WatcherConfig(msg.enabled, msg.requestFileExts, msg.blockedHosts, msg.matchingHosts, msg.mediaTypes)
  }

  /** `onMessage`: the host's message replaces the configuration wholesale. */
  function OnMessage(s: State, msg: HostMessage): (s': State)
    ensures s'.enabled <==> msg.enabled == Some(true)
    ensures s'.config == Config(msg.fileExts, msg.blockedHosts, msg.tabsWatcher)
    ensures s'.port == s.port && s'.outbox == s.outbox
    ensures s.platform.Chrome? ==> s'.platform == Chrome(true, s.platform.registerTabOpen)
    ensures s.platform.Firefox? ==> s'.platform == Firefox
    ensures s'.effects == s.effects
                          + (if s.platform.Chrome? && !s.platform.registered then [StoreRegistered] else [])
                          + [UpdateRequestWatcher(WatcherConfigOf(msg)), SetIcon(ActionIcon(s'.enabled))]
  {
    var firstContact := s.platform.Chrome? && !s.platform.registered;
    var platform := if s.platform.Chrome? then Chrome(true, s.platform.registerTabOpen) else Firefox;
    var s1 := s.(platform := platform,
                 enabled := msg.enabled == Some(true),
                 config := Config(msg.fileExts, msg.blockedHosts, msg.tabsWatcher),
                 effects := s.effects + (if firstContact then [StoreRegistered] else [])
                                      + [UpdateRequestWatcher(WatcherConfigOf(msg))]);
    UpdateActionIcon(s1)
  }

  /** `onDisconnect`: disable, drop the port, show the mono icon; Chrome then
      reads the stored `registered` flag. */
  function OnDisconnect(s: State): (s': State)
    ensures !s'.enabled && s'.port == NoPort
    ensures s'.platform == s.platform && s'.config == s.config && s'.outbox == s.outbox
    ensures s'.effects == s.effects + [SetIcon(ActionIcon(false))]
                          + (if s.platform.Chrome? then [ReadRegistered] else [])
  {
    var s1 := UpdateActionIcon(s.(enabled := false, port := NoPort));
    if s.platform.Chrome? then s1.(effects := s1.effects + [ReadRegistered]) else s1
  }

  /** Chrome's `onRegister`: open the registration tab unless the stored flag
      says registered or the tab was already opened. */
  function OnRegister(s: State, storedRegistered: bool): (s': State)
    requires s.platform.Chrome?
    ensures s'.platform.Chrome? && s'.platform.registered == s.platform.registered
    ensures s'.platform.registerTabOpen <==> s.platform.registerTabOpen || !storedRegistered
    ensures s'.effects == s.effects + (if storedRegistered || s.platform.registerTabOpen then [] else [OpenRegisterTab])
    ensures s'.enabled == s.enabled && s'.port == s.port && s'.config == s.config && s'.outbox == s.outbox
  {
    if storedRegistered || s.platform.registerTabOpen then s
    else s.(platform := s.platform.(registerTabOpen := true), effects := s.effects + [OpenRegisterTab])
  }

  /** `startNativeHost`: connect to this browser's native host. */
  function StartNativeHost(s: State): (s': State)
    ensures s'.port == Connected(NativeHostName(s.platform))
    ensures s' == s.(port := s'.port, effects := s.effects + [ConnectNative(NativeHostName(s.platform))])
  {
    var name := NativeHostName(s.platform);
    s.(port := Connected(name), effects := s.effects + [ConnectNative(name)])
  }

  /** `diconnect`: close the port if there is one, then run `onDisconnect`. */
  function Diconnect(s: State): (s': State)
    ensures !s'.enabled && s'.port == NoPort
    ensures s'.platform == s.platform && s'.config == s.config && s'.outbox == s.outbox
    ensures s'.effects == s.effects + (if s.port.Connected? then [DisconnectPort] else []) + [SetIcon(ActionIcon(false))]
                          + (if s.platform.Chrome? then [ReadRegistered] else [])
  {
    var closed := if s.port.Connected? then [DisconnectPort] else [];
    OnDisconnect(s.(effects := s.effects + closed))
  }

  /** Disconnecting twice in a row is harmless: the second call finds no port,
      does not try to close one, and leaves the same state apart from the log. */
  lemma DiconnectTwice(s: State)
    ensures var once := Diconnect(s); var twice := Diconnect(once);
            && twice.(effects := once.effects) == once
            && DisconnectPort !in twice.effects[|once.effects|..]
  {
  }

  /** `actionClicked`: connect when disabled without a port, disconnect when
      enabled, otherwise do nothing. */
  function ActionClicked(s: State): (s': State)
    ensures !s.enabled && s.port.NoPort? ==> s'.port == Connected(NativeHostName(s.platform)) && !s'.enabled
    ensures !s.enabled && s.port.NoPort? ==> s'.effects == s.effects + [ConnectNative(NativeHostName(s.platform))]
    ensures !s.enabled && s.port.Connected? ==> s' == s
    ensures s.enabled ==> !s'.enabled && s'.port == NoPort
    ensures s.enabled ==> s' == Diconnect(s)
    ensures s'.platform == s.platform && s'.config == s.config && s'.outbox == s.outbox
  {
    if !s.enabled then
      if s.port.NoPort? then StartNativeHost(s) else s
    else Diconnect(s)
  }

  /** `onTabUpdate`: relay `{tab_update: {url, title}}` when the title changed
      and some watched term's first occurrence in the URL is past index 0. Posting
      without a port throws and is caught, so nothing is sent then. */
  function OnTabUpdate(s: State, title: string, url: string): (s': State)
    ensures s' == s.(outbox := s'.outbox)
    ensures s'.outbox == s.outbox + [TabUpdate(url, title)] || s'.outbox == s.outbox
    ensures s'.outbox != s.outbox <==>
              && title != ""
              && (exists i :: 0 <= i < |s.config.tabsWatcher| && IndexOf(url, s.config.tabsWatcher[i]) > 0)
              && s.port.Connected?
  {
    if title != "" && TabWatched(s.config.tabsWatcher, url) && s.port.Connected?
    then s.(outbox := s.outbox + [TabUpdate(url, title)])
    else s
  }

  /** `triggerDownload` after the cookie store answered: post the
      `download_data` message, provided there were cookies and a port. The
      source posts without checking the port; in a reachable state the
      handlers only get here while enabled, hence with a port. */
  function TriggerDownload(s: State, url: string, file: string, referer: string, size: int, mime: string,
                           cookies: Option<seq<Cookie>>, userAgent: string): (s': State)
    ensures s' == s.(outbox := s'.outbox)
    ensures cookies.None? || s.port.NoPort? ==> s'.outbox == s.outbox
    ensures cookies.Some? && s.port.Connected? ==>
              s'.outbox == s.outbox + [DownloadData(url, CookieString(cookies.value), RequestHeaders(userAgent, referer),
                                                    file, size, mime, DownloadDataType)]
  {
    var msg := BuildDownloadData(url, file, referer, size, mime, cookies, userAgent);
    if msg.Some? && s.port.Connected? then s.(outbox := s.outbox + [msg.value]) else s
  }

  /** `download.finalUrl || download.url`. */
  function EffectiveUrl(d: Download): (u: Url)
    ensures d.finalUrl.href != "" ==> u == d.finalUrl
    ensures d.finalUrl.href == "" ==> u == d.url
  {
    if d.finalUrl.href != "" then d.finalUrl else d.url
  }

  /** The handlers' common test: enabled, and `shouldTakeOver` holds. */
  predicate Intercepts(s: State, d: Download)
  {
    var u := EffectiveUrl(d);
    s.enabled && ShouldTakeOver(s.config, u.host, u.pathname, d.filename)
  }

  /** With no empty entry in either list, the handlers decide exactly as the
      code as written does. */
  lemma InterceptsAsWritten(s: State, d: Download)
    requires "" !in s.config.fileExts && "" !in s.config.blockedHosts
    ensures Intercepts(s, d) <==>
              s.enabled && ShouldTakeOverAsWritten(s.config, EffectiveUrl(d).host, EffectiveUrl(d).pathname, d.filename)
  {
  }

  function TakeOver(s: State, d: Download, cancel: seq<Effect>, cookies: Option<seq<Cookie>>, userAgent: string): State
  {
    if Intercepts(s, d) then
      var u := EffectiveUrl(d);
      TriggerDownload(s.(effects := s.effects + cancel), u.href, d.filename, d.referrer, d.fileSize, d.mime, cookies, userAgent)
    else s
  }

  /** Chrome's `onDeterminingFilename`: when enabled and `shouldTakeOver` holds,
      cancel the download and send it to the host; otherwise change nothing. */
  function OnDeterminingFilename(s: State, d: Download, cookies: Option<seq<Cookie>>, userAgent: string): (s': State)
    requires s.platform.Chrome?
    ensures !s.enabled ==> s' == s
    ensures !Intercepts(s, d) ==> s' == s
    ensures Intercepts(s, d) ==> s'.effects == s.effects + [CancelDownload(d.id)]
    ensures Intercepts(s, d) && (cookies.None? || s.port.NoPort?) ==> s'.outbox == s.outbox
    ensures Intercepts(s, d) && cookies.Some? && s.port.Connected? ==>
              s'.outbox == s.outbox + [BuildDownloadData(EffectiveUrl(d).href, d.filename, d.referrer, d.fileSize,
                                                         d.mime, cookies, userAgent).value]
    ensures s'.enabled == s.enabled && s'.port == s.port && s'.config == s.config && s'.platform == s.platform
  {
    TakeOver(s, d, [CancelDownload(d.id)], cookies, userAgent)
  }

  /** Firefox's `onDownloadCreated`: as on Chrome, but the download is also
      erased from the history once the cancel has completed. */
  function OnDownloadCreated(s: State, d: Download, cookies: Option<seq<Cookie>>, userAgent: string): (s': State)
    requires s.platform.Firefox?
    ensures !s.enabled ==> s' == s
    ensures !Intercepts(s, d) ==> s' == s
    ensures Intercepts(s, d) ==> s'.effects == s.effects + [CancelDownload(d.id), EraseDownload(d.id)]
    ensures Intercepts(s, d) && (cookies.None? || s.port.NoPort?) ==> s'.outbox == s.outbox
    ensures Intercepts(s, d) && cookies.Some? && s.port.Connected? ==>
              s'.outbox == s.outbox + [BuildDownloadData(EffectiveUrl(d).href, d.filename, d.referrer, d.fileSize,
                                                         d.mime, cookies, userAgent).value]
    ensures s'.enabled == s.enabled && s'.port == s.port && s'.config == s.config && s'.platform == s.platform
  {
    TakeOver(s, d, [CancelDownload(d.id), EraseDownload(d.id)], cookies, userAgent)
  }
}

=== FILE: intercept.dfy ===
/**
  The interception decision shared by the Chrome `App` and the Firefox
  `DownloadWatcher`: whether a browser download is handed to the download
  manager (`shouldTakeOver`), and whether a tab update is relayed to it.

  The URL is taken already split into its host and pathname; parsing is the
  browser's `URL` class and is not modelled.
 */
module Intercept {
  import opened Optional
  import opened Strings

  /** The path of the sample downloads below. */
  const SamplePath := "/movie.mp4"

  /** The part of the native host's configuration the decisions read. */
  datatype Config = Config(fileExts: seq<string>, blockedHosts: seq<string>, tabsWatcher: seq<string>)

  /** `Array.prototype.find`: the first element satisfying `p`, or `undefined`. */
  function Find<T>(xs: seq<T>, p: T -> bool): (r: Option<T>)
    ensures r.None? <==> forall i :: 0 <= i < |xs| ==> !p(xs[i])
    ensures r.Some? ==> r.value in xs && p(r.value)
    ensures r.Some? ==> exists i :: 0 <= i < |xs| && xs[i] == r.value && forall j :: 0 <= j < i ==> !p(xs[j])
  {
    if |xs| == 0 then None
    else if p(xs[0]) then Some(xs[0])
    else
      var r := Find(xs[1..], p);
      assert r.Some? ==> exists i :: 1 <= i < |xs| && xs[i] == r.value && forall j :: 0 <= j < i ==> !p(xs[j]) by {
        if r.Some? {
          var i :| 0 <= i < |xs[1..]| && xs[1..][i] == r.value && forall j :: 0 <= j < i ==> !p(xs[1..][j]);
          assert xs[i + 1] == r.value;
          assert forall j :: 0 <= j < i + 1 ==> !p(xs[j]) by {
            forall j | 0 <= j < i + 1 ensures !p(xs[j]) {
              if j > 0 { assert xs[j] == xs[1..][j - 1]; }
            }
          }
        }
      }
      r
  }

  /** JavaScript truthiness of a string that `find` returned: `undefined` and `""` are falsy. */
  predicate Truthy(v: Option<string>)
  {
    v.Some? && v.value != ""
  }

  /** `file || u.pathname`: the suggested filename when there is one, else the URL path. */
  function EffectivePath(file: string, pathname: string): (path: string)
    ensures file != "" ==> path == file
    ensures file == "" ==> path == pathname
  {
    if file != "" then file else pathname
  }

  /** Some non-empty deny-list entry is a substring of the host. */
  ghost predicate Blocked(blockedHosts: seq<string>, host: string)
  {
    exists i :: 0 <= i < |blockedHosts| && blockedHosts[i] != "" && Contains(host, blockedHosts[i])
  }

  /** The upper-cased path ends with some non-empty configured extension. */
  ghost predicate ExtensionMatches(fileExts: seq<string>, path: string)
  {
    exists j :: 0 <= j < |fileExts| && fileExts[j] != "" && EndsWith(ToUpper(path), fileExts[j])
  }

  /** `shouldTakeOver` with the deny-list and extension tests read as "some
      non-empty entry matches", independently of the order of the entries. An
      empty entry matches nothing, which is what the code as written does with
      an empty entry that is the only one to match. */
  function ShouldTakeOver(cfg: Config, host: string, pathname: string, file: string): (r: bool)
    ensures r <==> !Blocked(cfg.blockedHosts, host) && ExtensionMatches(cfg.fileExts, EffectivePath(file, pathname))
  {
    var upath := ToUpper(EffectivePath(file, pathname));
    if Find(cfg.blockedHosts, (item: string) => item != "" && IndexOf(host, item) >= 0).Some? then false
    else Find(cfg.fileExts, (ext: string) => ext != "" && EndsWith(upath, ext)).Some?
  }

  /** `shouldTakeOver` exactly as written: each `find` result is tested for
      truthiness, so an empty entry that is found first reads as "no match". */
  function ShouldTakeOverAsWritten(cfg: Config, host: string, pathname: string, file: string): (r: bool)
    ensures r ==> ShouldTakeOver(cfg, host, pathname, file) || "" in cfg.blockedHosts
    ensures "" !in cfg.blockedHosts && "" !in cfg.fileExts ==> r == ShouldTakeOver(cfg, host, pathname, file)
  {
    var upath := ToUpper(EffectivePath(file, pathname));
    if Truthy(Find(cfg.blockedHosts, (item: string) => IndexOf(host, item) >= 0)) then false
    else Truthy(Find(cfg.fileExts, (ext: string) => EndsWith(upath, ext)))
  }

  /** The entries of `xs` other than the empty string, in order. */
  function NonEmptyEntries(xs: seq<string>): (r: seq<string>)
    ensures forall x :: x in r <==> x in xs && x != ""
  {
    if |xs| == 0 then []
    else if xs[0] == "" then NonEmptyEntries(xs[1..])
    else [xs[0]] + NonEmptyEntries(xs[1..])
  }

  /** The corrected decision is the code as written run on the lists with their
      empty entries removed. */
  lemma CorrectedIsWrittenWithoutEmptyEntries(cfg: Config, host: string, pathname: string, file: string)
    ensures ShouldTakeOver(cfg, host, pathname, file)
            == ShouldTakeOverAsWritten(Config(NonEmptyEntries(cfg.fileExts), NonEmptyEntries(cfg.blockedHosts), cfg.tabsWatcher),
                                       host, pathname, file)
  {
    var cfg' := Config(NonEmptyEntries(cfg.fileExts), NonEmptyEntries(cfg.blockedHosts), cfg.tabsWatcher);
    var path := EffectivePath(file, pathname);
    SameNonEmptyEntries(cfg.blockedHosts, cfg'.blockedHosts, (x: string) => Contains(host, x));
    SameNonEmptyEntries(cfg.fileExts, cfg'.fileExts, (x: string) => EndsWith(ToUpper(path), x));
    assert Blocked(cfg.blockedHosts, host) == Blocked(cfg'.blockedHosts, host);
    assert ExtensionMatches(cfg.fileExts, path) == ExtensionMatches(cfg'.fileExts, path);
  }

  /** Two lists with the same non-empty entries have a non-empty entry passing
      any test exactly together. */
  lemma SameNonEmptyEntries(xs: seq<string>, ys: seq<string>, p: string -> bool)
    requires forall x :: x != "" ==> (x in ys <==> x in xs)
    ensures (exists i :: 0 <= i < |xs| && xs[i] != "" && p(xs[i])) == (exists i :: 0 <= i < |ys| && ys[i] != "" && p(ys[i]))
  {
    if exists i :: 0 <= i < |xs| && xs[i] != "" && p(xs[i]) {
      var i :| 0 <= i < |xs| && xs[i] != "" && p(xs[i]);
      assert xs[i] in ys;
    }
    if exists i :: 0 <= i < |ys| && ys[i] != "" && p(ys[i]) {
      var i :| 0 <= i < |ys| && ys[i] != "" && p(ys[i]);
      assert ys[i] in xs;
    }
  }

  /** An empty deny-list entry, even ahead of every other entry, blocks nothing. */
  lemma EmptyBlockedEntryMatchesNothing(cfg: Config, host: string, pathname: string, file: string)
    ensures ShouldTakeOver(cfg.(blockedHosts := [""] + cfg.blockedHosts), host, pathname, file)
            == ShouldTakeOver(cfg, host, pathname, file)
  {
    SameNonEmptyEntries([""] + cfg.blockedHosts, cfg.blockedHosts, (x: string) => Contains(host, x));
  }

  /** An empty extension, even ahead of every other extension, matches no path. */
  lemma EmptyExtensionMatchesNothing(cfg: Config, host: string, pathname: string, file: string)
    ensures ShouldTakeOver(cfg.(fileExts := [""] + cfg.fileExts), host, pathname, file)
            == ShouldTakeOver(cfg, host, pathname, file)
  {
    var path := EffectivePath(file, pathname);
    SameNonEmptyEntries([""] + cfg.fileExts, cfg.fileExts, (x: string) => EndsWith(ToUpper(path), x));
  }

  /** A host that contains any non-empty deny-list entry is never taken over,
      whatever the filename and extensions. */
  lemma BlockedHostNeverTakenOver(cfg: Config, host: string, pathname: string, file: string, i: int)
    requires 0 <= i < |cfg.blockedHosts| && cfg.blockedHosts[i] != "" && Contains(host, cfg.blockedHosts[i])
    ensures !ShouldTakeOver(cfg, host, pathname, file)
  {
  }

  /** With no extensions configured nothing is taken over. */
  lemma NoExtensionsNeverTakeOver(cfg: Config, host: string, pathname: string, file: string)
    requires cfg.fileExts == []
    ensures !ShouldTakeOver(cfg, host, pathname, file)
  {
  }

  /** Only the path is upper-cased: an extension holding a lower-case ASCII letter
      can never match. */
  lemma LowercaseExtensionNeverMatches(path: string, ext: string, k: int)
    requires 0 <= k < |ext| && IsLower(ext[k])
    ensures !EndsWith(ToUpper(path), ext)
  {
  }

  /** A download whose host is not blocked is taken over as soon as its
      upper-cased path ends with a non-empty configured extension. */
  lemma ExtensionMatchTakesOver(cfg: Config, host: string, pathname: string, file: string, j: int)
    requires !Blocked(cfg.blockedHosts, host)
    requires 0 <= j < |cfg.fileExts| && cfg.fileExts[j] != ""
    requires EndsWith(ToUpper(EffectivePath(file, pathname)), cfg.fileExts[j])
    ensures ShouldTakeOver(cfg, host, pathname, file)
  {
  }

  /** The sample path `/movie.mp4` upper-cases to a string ending in `.MP4`. */
  lemma MovieIsMp4()
    ensures EndsWith(ToUpper("/movie.mp4"), ".MP4")
  {
    var s := "/movie.mp4";
    assert s[6..] == ".mp4";
    assert ToUpper(".mp4") == ".MP4";
    ToUpperSuffix(s, 6);
  }

  /** Upper-casing commutes with taking a suffix. */
  lemma ToUpperSuffix(s: string, k: nat)
    requires k <= |s|
    ensures ToUpper(s)[k..] == ToUpper(s[k..])
  {
    var u := ToUpper(s);
    var t := ToUpper(s[k..]);
    forall i | 0 <= i < |t| ensures u[k..][i] == t[i] {
      assert u[k + i] == UpperChar(s[k + i]) && t[i] == UpperChar(s[k..][i]);
    }
  }

  /** As written, a deny-list whose first entry is empty blocks no host at all:
      `find` stops at that entry, which is falsy. */
  lemma EmptyFirstBlockedEntryDisablesDenyList(cfg: Config, host: string, pathname: string, file: string)
    requires |cfg.blockedHosts| > 0 && cfg.blockedHosts[0] == ""
    ensures ShouldTakeOverAsWritten(cfg, host, pathname, file)
            == ShouldTakeOverAsWritten(cfg.(blockedHosts := []), host, pathname, file)
  {
    IndexOfEmpty(host);
  }

  /** As written, an extension list whose first entry is empty takes nothing
      over: every path ends with `""`, and `""` is falsy. */
  lemma EmptyFirstExtensionRefusesAll(cfg: Config, host: string, pathname: string, file: string)
    requires |cfg.fileExts| > 0 && cfg.fileExts[0] == ""
    ensures !ShouldTakeOverAsWritten(cfg, host, pathname, file)
  {
  }

  /** As written, an empty first deny-list entry lets every blocked host
      through whose download would otherwise be taken over. */
  lemma EmptyFirstBlockedEntryBypassesDenyList(cfg: Config, host: string, pathname: string, file: string)
    requires |cfg.blockedHosts| > 0 && cfg.blockedHosts[0] == "" && "" !in cfg.fileExts
    requires Blocked(cfg.blockedHosts, host) && ExtensionMatches(cfg.fileExts, EffectivePath(file, pathname))
    ensures ShouldTakeOverAsWritten(cfg, host, pathname, file)
    ensures !ShouldTakeOver(cfg, host, pathname, file)
  {
    EmptyFirstBlockedEntryDisablesDenyList(cfg, host, pathname, file);
    assert ShouldTakeOver(cfg.(blockedHosts := []), host, pathname, file);
  }

  /** The code as written lets a blocked host through when an empty deny-list
      entry comes before the entry that matches it: with extensions `[".MP4"]`
      and deny-list `["", host]`, `/movie.mp4` from `host` itself (for example
      `cdn.blocked.com`) is taken over, while the corrected decision refuses it. */
  lemma EmptyBlockedEntryBypassesDenyList(host: string)
    requires host != ""
    ensures ShouldTakeOverAsWritten(Config([".MP4"], ["", host], []), host, SamplePath, "")
    ensures !ShouldTakeOver(Config([".MP4"], ["", host], []), host, SamplePath, "")
  {
    HostBehindEmptyEntryBlocked(host);
    SamplePathMatches();
    EmptyFirstBlockedEntryBypassesDenyList(Config([".MP4"], ["", host], []), host, SamplePath, "");
  }

  lemma HostBehindEmptyEntryBlocked(host: string)
    requires host != ""
    ensures Blocked(["", host], host)
  {
    assert OccursAt(host, host, 0);
    assert ["", host][1] == host;
  }

  lemma SamplePathMatches()
    ensures ExtensionMatches([".MP4"], EffectivePath("", SamplePath))
  {
    MovieIsMp4();
    assert [".MP4"][0] != "" && EndsWith(ToUpper(EffectivePath("", SamplePath)), [".MP4"][0]);
  }

  /** The code as written drops a download whose extension is configured when an
      empty extension comes before it. */
  lemma EmptyExtensionMasksMatch()
    ensures var cfg := Config(["", ".MP4"], [], []);
            && !ShouldTakeOverAsWritten(cfg, "videos.example.com", "/movie.mp4", "")
            && ShouldTakeOver(cfg, "videos.example.com", "/movie.mp4", "")
  {
    var cfg := Config(["", ".MP4"], [], []);
    EmptyFirstExtensionRefusesAll(cfg, "videos.example.com", "/movie.mp4", "");
    MovieIsMp4();
    assert cfg.fileExts[1] != "" && EndsWith(ToUpper(EffectivePath("", "/movie.mp4")), cfg.fileExts[1]);
  }

  /** The example configuration takes over `https://videos.example.com/movie.mp4`. */
  lemma ExampleHostTakenOver()
    ensures ShouldTakeOver(Config([".MP4"], ["cdn.blocked.com"], []), "videos.example.com", "/movie.mp4", "")
  {
    var cfg := Config([".MP4"], ["cdn.blocked.com"], []);
    var h := "videos.example.com";
    assert h[0] != 'c' && h[1] != 'c' && h[2] != 'c' && h[3] != 'c';
    NotContainsByFirstChar(h, cfg.blockedHosts[0]);
    assert !Blocked(cfg.blockedHosts, h);
    MovieIsMp4();
    assert EndsWith(ToUpper(EffectivePath("", "/movie.mp4")), cfg.fileExts[0]);
  }

  /** The same file served from the blocked host is left to the browser. */
  lemma ExampleBlockedHostRefused()
    ensures !ShouldTakeOver(Config([".MP4"], ["cdn.blocked.com"], []), "cdn.blocked.com", "/movie.mp4", "")
  {
    assert OccursAt("cdn.blocked.com", "cdn.blocked.com", 0);
  }

  /** `tabsWatcher.find(t => url.indexOf(t) > 0)` is truthy exactly when some
      watched term's first occurrence in the URL is past index 0. */
  function TabWatched(tabsWatcher: seq<string>, url: string): (r: bool)
    ensures r <==> exists i :: 0 <= i < |tabsWatcher| && IndexOf(url, tabsWatcher[i]) > 0
  {
    var found := Find(tabsWatcher, (t: string) => IndexOf(url, t) > 0);
    assert found.Some? ==> found.value != "" by {
      if found.Some? && found.value == "" { IndexOfEmpty(url); }
    }
    Truthy(found)
  }

  /** A watched term matches when it occurs in the URL but not at its very start:
      `indexOf` reports the first occurrence, so an occurrence at index 0 hides
      every later one. */
  lemma WatchedTermMatch(url: string, t: string)
    ensures IndexOf(url, t) > 0 <==> Contains(url, t) && !OccursAt(url, t, 0)
  {
  }

  /** A URL that starts with every watched term is never relayed, and neither is
      any URL when the only watched term is empty. */
  lemma TermAtStartNeverRelays(tabsWatcher: seq<string>, url: string)
    requires forall i :: 0 <= i < |tabsWatcher| ==> OccursAt(url, tabsWatcher[i], 0)
    ensures !TabWatched(tabsWatcher, url)
  {
  }
}

=== FILE: lifecycle.dfy ===
/**
  Runs of the extension: the browser and the native host deliver events one at
  a time to the handlers of `Extension`, and the properties below hold after any
  sequence of them.
 */
module Lifecycle {
  import opened Optional
  import opened Intercept
  import opened Protocol
  import opened Extension

  /** One event, as the listeners registered at start-up receive it. */
  datatype Event =
    | HostSent(msg: HostMessage)
    | PortClosed
    | Clicked
    | StorageRead(storedRegistered: bool)
    | DownloadSeen(download: Download, cookies: Option<seq<Cookie>>)
    | TabChanged(title: string, url: string)
    | RequestSeen(data: string)

  /** Port events only arrive while a port is open; the stored-flag callback
      exists only on Chrome. */
  predicate Deliverable(s: State, e: Event)
  {
    match e
    case HostSent(_) => s.port.Connected?
    case PortClosed => s.port.Connected?
    case StorageRead(_) => s.platform.Chrome?
    case _ => true
  }

  /** Dispatch one event to its handler; an event that cannot arrive in this
      state changes nothing. */
  function Step(s: State, e: Event, userAgent: string): State
  {
    if !Deliverable(s, e) then s
    else match e
      case HostSent(msg) => OnMessage(s, msg)
      case PortClosed => OnDisconnect(s)
      case Clicked => ActionClicked(s)
      case StorageRead(stored) => OnRegister(s, stored)
      case DownloadSeen(d, cookies) =>
        if s.platform.Chrome? then OnDeterminingFilename(s, d, cookies, userAgent)
        else OnDownloadCreated(s, d, cookies, userAgent)
      case TabChanged(title, url) => OnTabUpdate(s, title, url)
      case RequestSeen(data) => OnRequestDataReceived(s, data)
  }

  function Run(s: State, events: seq<Event>, userAgent: string): State
    decreases |events|
  {
    if |events| == 0 then s else Run(Step(s, events[0], userAgent), events[1..], userAgent)
  }

  /** Reachable states: enabled only with an open port, and the registration tab
      opened exactly once if the flag says so and never otherwise. */
  ghost predicate Inv(s: State)
  {
    && (s.enabled ==> s.port.Connected?)
    && multiset(s.effects)[OpenRegisterTab] == (if s.platform.Chrome? && s.platform.registerTabOpen then 1 else 0)
  }

  lemma InitialInv(onChrome: bool)
    ensures Inv(Initial(onChrome))
  {
  }

  /** Appending entries other than `OpenRegisterTab` keeps its count. */
  lemma CountAfterAppend(before: seq<Effect>, after: seq<Effect>)
    requires |before| <= |after| && after[..|before|] == before
    ensures multiset(after)[OpenRegisterTab]
            == multiset(before)[OpenRegisterTab] + multiset(after[|before|..])[OpenRegisterTab]
  {
    assert after == before + after[|before|..];
  }

  /** A handler that appends no `OpenRegisterTab`, keeps the platform flags and
      leaves the extension disabled or connected keeps the invariant. */
  lemma KeepsInv(s: State, s': State)
    requires Inv(s)
    requires |s.effects| <= |s'.effects| && s'.effects[..|s.effects|] == s.effects
    requires OpenRegisterTab !in s'.effects[|s.effects|..]
    requires s'.platform.Chrome? == s.platform.Chrome?
    requires s.platform.Chrome? ==> s'.platform.registerTabOpen == s.platform.registerTabOpen
    requires s'.enabled ==> s'.port.Connected?
    ensures Inv(s')
  {
    CountAfterAppend(s.effects, s'.effects);
  }

  lemma MessageInv(s: State, msg: HostMessage)
    requires Inv(s) && s.port.Connected?
    ensures Inv(OnMessage(s, msg))
  {
    var s' := OnMessage(s, msg);
    var added := (if s.platform.Chrome? && !s.platform.registered then [StoreRegistered] else [])
                 + [UpdateRequestWatcher(WatcherConfigOf(msg)), SetIcon(ActionIcon(s'.enabled))];
    assert s'.effects == s.effects + added;
    assert s'.effects[|s.effects|..] == added;
    assert OpenRegisterTab !in added;
    KeepsInv(s, s');
  }

  lemma DisconnectInv(s: State)
    requires Inv(s)
    ensures Inv(OnDisconnect(s))
  {
    var s' := OnDisconnect(s);
    assert s'.effects[|s.effects|..] <= [SetIcon(ActionIcon(false)), ReadRegistered];
    KeepsInv(s, s');
  }

  lemma ClickInv(s: State)
    requires Inv(s)
    ensures Inv(ActionClicked(s))
  {
    var s' := ActionClicked(s);
    if s.enabled {
      assert s'.effects[|s.effects|..] == (if s.port.Connected? then [DisconnectPort] else []) + [SetIcon(ActionIcon(false))]
                                          + (if s.platform.Chrome? then [ReadRegistered] else []);
    } else if s.port.NoPort? {
      assert s'.effects[|s.effects|..] == [ConnectNative(NativeHostName(s.platform))];
    }
    KeepsInv(s, s');
  }

  lemma RegisterInv(s: State, stored: bool)
    requires Inv(s) && s.platform.Chrome?
    ensures Inv(OnRegister(s, stored))
  {
    CountAfterAppend(s.effects, OnRegister(s, stored).effects);
  }

  lemma DownloadInv(s: State, d: Download, cookies: Option<seq<Cookie>>, userAgent: string)
    requires Inv(s)
    ensures Inv(Step(s, DownloadSeen(d, cookies), userAgent))
  {
    KeepsInv(s, Step(s, DownloadSeen(d, cookies), userAgent));
  }

  lemma StepInv(s: State, e: Event, userAgent: string)
    requires Inv(s)
    ensures Inv(Step(s, e, userAgent))
    ensures Step(s, e, userAgent).platform.Chrome? == s.platform.Chrome?
  {
    if Deliverable(s, e) {
      match e
      case HostSent(msg) => MessageInv(s, msg);
      case PortClosed => DisconnectInv(s);
      case Clicked => ClickInv(s);
      case StorageRead(stored) => RegisterInv(s, stored);
      case DownloadSeen(d, cookies) => DownloadInv(s, d, cookies, userAgent);
      case TabChanged(_, _) =>
      case RequestSeen(_) =>
    }
  }

  /** Every state reached from a reachable state by any events is reachable. */
  lemma {:induction false} RunInv(s: State, events: seq<Event>, userAgent: string)
    requires Inv(s)
    ensures Inv(Run(s, events, userAgent))
    decreases |events|
  {
    if |events| > 0 {
      StepInv(s, events[0], userAgent);
      RunInv(Step(s, events[0], userAgent), events[1..], userAgent);
    }
  }

  /** Chrome opens the registration tab at most once, whatever happens. */
  lemma RegisterTabOpenedAtMostOnce(onChrome: bool, events: seq<Event>, userAgent: string)
    ensures multiset(Run(Initial(onChrome), events, userAgent).effects)[OpenRegisterTab] <= 1
  {
    InitialInv(onChrome);
    RunInv(Initial(onChrome), events, userAgent);
  }

  /** Once the first host message has set `registered`, it stays set. */
  lemma {:induction false} RegisteredStaysSet(s: State, events: seq<Event>, userAgent: string)
    requires s.platform.Chrome? && s.platform.registered
    ensures Run(s, events, userAgent).platform.Chrome?
    ensures Run(s, events, userAgent).platform.registered
    decreases |events|
  {
    if |events| > 0 {
      RegisteredStaysSet(Step(s, events[0], userAgent), events[1..], userAgent);
    }
  }

  /** Sends are guarded on the port: with no port no event posts anything. */
  lemma NothingSentWithoutPort(s: State, e: Event, userAgent: string)
    requires s.port.NoPort?
    ensures Step(s, e, userAgent).outbox == s.outbox
  {
  }

  /** A download event while disabled changes nothing: no cancel, no message. */
  lemma NeverTakenOverWhileDisabled(s: State, d: Download, cookies: Option<seq<Cookie>>, userAgent: string)
    requires !s.enabled
    ensures Step(s, DownloadSeen(d, cookies), userAgent) == s
  {
  }

  /** In a reachable state an intercepted download always reaches the host once
      the cookie store has answered, because an enabled extension has a port. */
  lemma InterceptedDownloadReachesHost(s: State, d: Download, cookies: Option<seq<Cookie>>, userAgent: string)
    requires Inv(s) && Intercepts(s, d) && cookies.Some?
    ensures var s' := Step(s, DownloadSeen(d, cookies), userAgent);
            && s'.outbox == s.outbox + [BuildDownloadData(EffectiveUrl(d).href, d.filename, d.referrer, d.fileSize,
                                                          d.mime, cookies, userAgent).value]
            && CancelDownload(d.id) in s'.effects[|s.effects|..]
  {
    assert s.port.Connected?;
    DownloadStep(s, d, cookies, userAgent);
    var s' := Step(s, DownloadSeen(d, cookies), userAgent);
    if s.platform.Chrome? {
      assert s'.effects[|s.effects|..] == [CancelDownload(d.id)];
    } else {
      assert s'.effects[|s.effects|..] == [CancelDownload(d.id), EraseDownload(d.id)];
    }
  }

  /** A download event goes to the platform's download handler. */
  lemma DownloadStep(s: State, d: Download, cookies: Option<seq<Cookie>>, userAgent: string)
    ensures s.platform.Chrome? ==> Step(s, DownloadSeen(d, cookies), userAgent) == OnDeterminingFilename(s, d, cookies, userAgent)
    ensures s.platform.Firefox? ==> Step(s, DownloadSeen(d, cookies), userAgent) == OnDownloadCreated(s, d, cookies, userAgent)
  {
  }

  /** An enabling host message followed by the port closing leaves the
      extension disabled and without a port. */
  lemma EnableThenDisconnect(s: State, msg: HostMessage, userAgent: string)
    requires s.port.Connected? && msg.enabled == Some(true)
    ensures Step(s, HostSent(msg), userAgent).enabled
    ensures var s' := Run(s, [HostSent(msg), PortClosed], userAgent);
            !s'.enabled && s'.port == NoPort
  {
    var s1 := Step(s, HostSent(msg), userAgent);
    assert Run(s, [HostSent(msg), PortClosed], userAgent) == Run(s1, [PortClosed], userAgent);
  }

  /** Clicking the toolbar button twice from a fresh start connects once; the
      second click, still disabled with a port, does nothing. */
  lemma ClickConnectsOnce(onChrome: bool, userAgent: string)
    ensures var s' := Run(Initial(onChrome), [Clicked, Clicked], userAgent);
            && s'.port.Connected? && !s'.enabled
            && s'.effects == [ConnectNative(NativeHostName(Initial(onChrome).platform))]
  {
    var s0 := Initial(onChrome);
    var s1 := Step(s0, Clicked, userAgent);
    assert Run(s0, [Clicked, Clicked], userAgent) == Run(s1, [Clicked], userAgent);
  }
}

=== FILE: optional.dfy ===
/** A value that may be missing: JavaScript's `undefined` next to a real value. */
module Optional {

  datatype Option<+T> = None | Some(value: T)
}

=== FILE: protocol.dfy ===
/**
  The messages the extension posts on the native-messaging port, and how the
  `download_data` message is built from a download (`triggerDownload`): the
  cookie string, the request headers and the message tag.

  `ParseCookieString` and `HeaderValue` are how a receiver reads those fields
  back; they serve as the independent definitions the construction is checked
  against.
 */
module Protocol {
  import opened Optional
  import opened Strings

  /** One entry of the browser's cookie store for the download's URL. */
  datatype Cookie = Cookie(name: string, value: string)

  /** The three shapes of message sent to the native host; only `download_data`
      carries a `type` field, held here in `msgType`. */
  datatype OutboundMessage =
    | DownloadData(url: string, cookie: string, headers: seq<string>, filename: string,
                   fileSize: int, mimeType: string, msgType: string)
    | DownloadHeaders(data: string)
    | TabUpdate(url: string, title: string)

  const DownloadDataType := "download_data"
  const CookieSeparator := "; "

  /** `cookie.name + "=" + cookie.value`. */
  function CookiePair(c: Cookie): (p: string)
    ensures |p| == |c.name| + 1 + |c.value|
    ensures p[..|c.name|] == c.name && p[|c.name|] == '=' && p[|c.name| + 1..] == c.value
  {
    c.name + "=" + c.value
  }

  function CookiePairs(cs: seq<Cookie>): (ps: seq<string>)
    ensures |ps| == |cs|
    ensures forall i :: 0 <= i < |cs| ==> ps[i] == CookiePair(cs[i])
  {
    seq(|cs|, i requires 0 <= i < |cs| => CookiePair(cs[i]))
  }

  /** The `cookie` field: the `name=value` pairs in store order, joined by `"; "`. */
  function CookieString(cs: seq<Cookie>): (r: string)
    ensures r == "" <==> cs == []
    ensures |cs| == 1 ==> r == CookiePair(cs[0])
  {
    var ps := CookiePairs(cs);
    assert |cs| > 0 ==> |Join(ps, CookieSeparator)| >= |ps[0]| by {
      if |cs| > 1 { assert Join(ps, CookieSeparator) == ps[0] + CookieSeparator + Join(ps[1..], CookieSeparator); }
    }
    Join(ps, CookieSeparator)
  }

  /** A cookie a store can hold: section 4.1.1 of RFC 6265 keeps `;` and `=` out
      of names and `;` out of values. */
  predicate WellFormedCookie(c: Cookie)
  {
    ';' !in c.name && '=' !in c.name && ';' !in c.value
  }

  /** A receiver's reading of one `name=value` pair: split at the first `=`. */
  function ParseCookiePair(p: string): Cookie
  {
    var i := IndexOf(p, "=");
    if i < 0 then Cookie(p, "") else Cookie(p[..i], p[i + 1..])
  }

  /** A receiver's reading of the `cookie` field. */
  function ParseCookieString(s: string): seq<Cookie>
  {
    if s == "" then []
    else
      var parts := Split(s, CookieSeparator);
      seq(|parts|, i requires 0 <= i < |parts| => ParseCookiePair(parts[i]))
  }

  lemma ParseCookiePairRoundTrip(c: Cookie)
    requires '=' !in c.name
    ensures ParseCookiePair(CookiePair(c)) == c
  {
    IndexOfAfterPrefix(c.name, "=", c.value);
    assert c.name + "=" + c.value == CookiePair(c);
  }

  /** Reading the `cookie` field back gives exactly the cookies it was built
      from, in the same order. */
  lemma CookieStringRoundTrip(cs: seq<Cookie>)
    requires forall i :: 0 <= i < |cs| ==> WellFormedCookie(cs[i])
    ensures ParseCookieString(CookieString(cs)) == cs
  {
    if cs != [] {
      var ps := CookiePairs(cs);
      forall k | 0 <= k < |ps| ensures CookieSeparator[0] !in ps[k] {
        assert ps[k] == cs[k].name + "=" + cs[k].value;
      }
      SplitJoin(ps, CookieSeparator);
      forall k | 0 <= k < |cs| ensures ParseCookiePair(ps[k]) == cs[k] {
        ParseCookiePairRoundTrip(cs[k]);
      }
    }
  }

  /** The request headers: `User-Agent` first, then `Referer` only for a
      non-empty referrer. */
  function RequestHeaders(userAgent: string, referer: string): (h: seq<string>)
    ensures 1 <= |h| <= 2 && h[0] == "User-Agent: " + userAgent
    ensures |h| == 2 <==> referer != ""
    ensures |h| == 2 ==> h[1] == "Referer: " + referer
  {
    var headers := ["User-Agent: " + userAgent];
    if referer != "" then headers + ["Referer: " + referer] else headers
  }

  /** A receiver's lookup of a header: the rest of the first line that starts
      with `name: `. */
  function HeaderValue(headers: seq<string>, name: string): Option<string>
  {
    if |headers| == 0 then None
    else
      var prefix := name + ": ";
      if |prefix| <= |headers[0]| && headers[0][..|prefix|] == prefix then Some(headers[0][|prefix|..])
      else HeaderValue(headers[1..], name)
  }

  /** The receiver finds the user agent, and finds a referrer exactly when one
      was given. */
  lemma RequestHeadersLookup(userAgent: string, referer: string)
    ensures HeaderValue(RequestHeaders(userAgent, referer), "User-Agent") == Some(userAgent)
    ensures HeaderValue(RequestHeaders(userAgent, referer), "Referer") == if referer != "" then Some(referer) else None
  {
    var h := RequestHeaders(userAgent, referer);
    assert h[0][..|"User-Agent: "|] == "User-Agent: ";
    assert h[0][0] == 'U';
    if referer != "" {
      assert h[1][..|"Referer: "|] == "Referer: ";
      assert h[1][0] == 'R';
    }
  }

  /** `triggerDownload` once the cookie store has answered: no message when the
      store returned nothing, otherwise the `download_data` message. */
  function BuildDownloadData(url: string, file: string, referer: string, size: int, mime: string,
                             cookies: Option<seq<Cookie>>, userAgent: string): (r: Option<OutboundMessage>)
    ensures r.None? <==> cookies.None?
    ensures r.Some? ==> r.value.DownloadData? && r.value.msgType == DownloadDataType
    ensures r.Some? ==> r.value.url == url && r.value.filename == file
    ensures r.Some? ==> r.value.fileSize == size && r.value.mimeType == mime
    ensures r.Some? ==> r.value.cookie == CookieString(cookies.value)
    ensures r.Some? ==> r.value.headers == RequestHeaders(userAgent, referer)
  {
    match cookies
    case None => None
    case Some(cs) =>
      Some(DownloadData(url, CookieString(cs), RequestHeaders(userAgent, referer), file, size, mime, DownloadDataType))
  }

  /** One cookie `sid=abc` and a referrer give the cookie string `sid=abc` and
      the two headers. */
  lemma SingleCookieScenario(userAgent: string)
    ensures var m := BuildDownloadData("https://videos.example.com/movie.mp4", "movie.mp4", "https://ref.example.com",
                                       0, "video/mp4", Some([Cookie("sid", "abc")]), userAgent);
            && m.Some? && m.value.cookie == "sid=abc"
            && m.value.headers == ["User-Agent: " + userAgent, "Referer: https://ref.example.com"]
  {
    var h := RequestHeaders(userAgent, "https://ref.example.com");
    assert h == [h[0], h[1]];
    assert "Referer: " + "https://ref.example.com" == "Referer: https://ref.example.com";
  }
}

=== FILE: strings.dfy ===
/**
  The JavaScript string operations the extension relies on, over `seq<char>`:
  `indexOf`, `endsWith`, `toUpperCase` (ASCII letters only) and `Array.join`,
  together with the `split` a receiver would use to undo `join`.
 */
module Strings {

  /** `t` occurs in `s` starting at index `i`. */
  predicate OccursAt(s: string, t: string, i: int)
  {
    0 <= i && i + |t| <= |s| && s[i..i + |t|] == t
  }

  /** `t` is a substring of `s`. */
  ghost predicate Contains(s: string, t: string)
  {
    exists i :: OccursAt(s, t, i)
  }

  /** `s.indexOf(t, from)`: the first occurrence of `t` at or after `from`, or -1. */
  function IndexOfFrom(s: string, t: string, from: nat): (r: int)
    ensures r == -1 || (from <= r && OccursAt(s, t, r))
    ensures r == -1 <==> forall j :: from <= j ==> !OccursAt(s, t, j)
    ensures 0 <= r ==> forall j :: from <= j < r ==> !OccursAt(s, t, j)
    decreases |s| - from
  {
    if |s| < from + |t| then -1
    else if s[from..from + |t|] == t then from
    else IndexOfFrom(s, t, from + 1)
  }

  /** `s.indexOf(t)`: the index of the first occurrence of `t` in `s`, or -1. */
  function IndexOf(s: string, t: string): (r: int)
    ensures r == -1 <==> !Contains(s, t)
    ensures 0 <= r ==> OccursAt(s, t, r)
    ensures 0 <= r ==> forall j :: 0 <= j < r ==> !OccursAt(s, t, j)
  {
    IndexOfFrom(s, t, 0)
  }

  /** The empty string is found at index 0 of every string. */
  lemma IndexOfEmpty(s: string)
    ensures IndexOf(s, "") == 0
  {
  }

  /** When the first character of `sep` does not occur in `p`, the first
      occurrence of `sep` in `p + sep + rest` is the one right after `p`. */
  lemma IndexOfAfterPrefix(p: string, sep: string, rest: string)
    requires |sep| > 0 && sep[0] !in p
    ensures IndexOf(p + sep + rest, sep) == |p|
  {
    var s := p + sep + rest;
    assert s[|p|..|p| + |sep|] == sep;
    assert OccursAt(s, sep, |p|);
  }

  /** With no character of `sep` at all in `s`, `sep` is not found. */
  lemma IndexOfAbsent(s: string, sep: string)
    requires |sep| > 0 && sep[0] !in s
    ensures IndexOf(s, sep) == -1
  {
  }

  /** `t` cannot occur where the first character of `t` is absent. */
  lemma NotContainsByFirstChar(s: string, t: string)
    requires |t| > 0
    requires forall i :: 0 <= i <= |s| - |t| ==> s[i] != t[0]
    ensures !Contains(s, t)
  {
    forall i | OccursAt(s, t, i) ensures s[i] == t[0] {
      FirstCharOfOccurrence(s, t, i);
    }
  }

  lemma FirstCharOfOccurrence(s: string, t: string, i: int)
    requires |t| > 0 && OccursAt(s, t, i)
    ensures s[i] == t[0]
  {
  }

  /** `s.endsWith(suffix)`. */
  predicate EndsWith(s: string, suffix: string)
  {
    |suffix| <= |s| && s[|s| - |suffix|..] == suffix
  }

  /** `endsWith` holds exactly when `s` is some string followed by `suffix`. */
  lemma EndsWithIffConcat(s: string, suffix: string)
    ensures EndsWith(s, suffix) <==> exists p :: p + suffix == s
  {
    if EndsWith(s, suffix) {
      var p := s[..|s| - |suffix|];
      assert p + suffix == s;
    }
    if exists p :: p + suffix == s {
      var p :| p + suffix == s;
      assert s[|s| - |suffix|..] == suffix;
    }
  }

  predicate IsLower(c: char)
  {
    'a' <= c <= 'z'
  }

  /** ASCII upper-casing of one character; every other character is kept. */
  function UpperChar(c: char): (u: char)
    ensures !IsLower(u)
    ensures IsLower(c) ==> u as int == c as int - 32 && 'A' <= u <= 'Z'
    ensures !IsLower(c) ==> u == c
  {
    if IsLower(c) then (c as int - 32) as char else c
  }

  /** `s.toUpperCase()` restricted to ASCII: same length, each character upper-cased,
      and no lower-case ASCII letter is left. */
  function ToUpper(s: string): (r: string)
    ensures |r| == |s|
    ensures forall i :: 0 <= i < |s| ==> r[i] == UpperChar(s[i])
    ensures forall i :: 0 <= i < |r| ==> !IsLower(r[i])
  {
    if |s| == 0 then "" else [UpperChar(s[0])] + ToUpper(s[1..])
  }

  /** `parts.join(sep)`. */
  function Join(parts: seq<string>, sep: string): string
  {
    if |parts| == 0 then ""
    else if |parts| == 1 then parts[0]
    else parts[0] + sep + Join(parts[1..], sep)
  }

  /** `s.split(sep)` for a non-empty separator: the pieces between occurrences. */
  function Split(s: string, sep: string): (r: seq<string>)
    requires |sep| > 0
    ensures |r| >= 1
    decreases |s|
  {
    var i := IndexOf(s, sep);
    if i < 0 then [s] else [s[..i]] + Split(s[i + |sep|..], sep)
  }

  /** Splitting a joined list gives the list back, provided no part contains
      the first character of the separator. */
  lemma {:induction false} SplitJoin(parts: seq<string>, sep: string)
    requires |parts| > 0 && |sep| > 0
    requires forall k :: 0 <= k < |parts| ==> sep[0] !in parts[k]
    ensures Split(Join(parts, sep), sep) == parts
    decreases |parts|
  {
    if |parts| == 1 {
      IndexOfAbsent(parts[0], sep);
    } else {
      var rest := Join(parts[1..], sep);
      var s := parts[0] + sep + rest;
      IndexOfAfterPrefix(parts[0], sep, rest);
      assert s[..|parts[0]|] == parts[0];
      assert s[|parts[0]| + |sep|..] == rest;
      SplitJoin(parts[1..], sep);
      assert [parts[0]] + parts[1..] == parts;
    }
  }
}
